=== FILE: README.md ===
# Nextcloud WebDAV client — a Dafny model

This project models `NextcloudClient`, the WebDAV client of the
nextcloud-uploader repository, and proves properties of the model. The client
turns a server URL, a username and a password into a client object. Against
the user's WebDAV root `/remote.php/dav/files/<username>` it then uploads files
(PUT), creates collections (MKCOL), lists a collection's immediate children
(PROPFIND with `Depth: 1`) and deletes resources (DELETE).

Each operation is a pure function. It takes the client, the operation's
arguments and the server's reply, and returns a `Call`: the request it sends
(or none, when it raises before sending) and its outcome. The outcome is the
Python return value (`True`/`False`, `None`, a list of entries) or the
exception it raises.

The modules follow the program's layers:

- `Wrappers`: `Option` and `Result`.
- `PathText`: Python's `str.lstrip('/')`, `rstrip('/')`, `strip('/')`, `split('/')`, `'/'.join` and `split('/')[-1]`.
- `Utf8`: UTF-8 encoding, and decoding with U+FFFD replacement as CPython's `errors='replace'` does it (maximal subparts, section 3.9 of the Unicode Standard).
- `Percent`: `urllib.parse.quote(part, safe='')`, `unquote_to_bytes` and `unquote`.
- `Http`: requests, replies and `raise_for_status`.
- `Multistatus`: the PROPFIND multi-status body as the XML parser leaves it (section 9.1 of RFC 4918), and how `list_directory` extracts entries from it.
- `NextcloudClient`: the constructor, `_build_url`, `_handle_response` and the four operations.

Where the code and its documented or natural reading disagree, the model
follows the code:

- Listing the root `/` requests `.../files/<user>/`, with a trailing slash. `"/".strip('/')` is `""`, which splits to `[""]` and joins back to `""`, and the slash before it stays (`RootUrl`).
- `_handle_response` documents that it raises for every status outside `success_codes`. In fact it only calls `raise_for_status`, which raises for 400–599 alone. A status outside that range and outside the success codes therefore passes:
  - `upload_file` returns `True`.
  - `delete` returns `True`.
  - `list_directory` parses the body.
  - `create_directory` returns `None` (see Findings).

  `RaisesOnlyForDocumentedErrorStatuses` states exactly where code and documentation part.
- A `Content-Type` guess that is the empty string also falls back to `application/octet-stream`, because the code uses `or`.

## Model

| member | source | states |
|---|---|---|
| NextcloudClient.New | nextcloud-uploader/nextcloud_api.py:38-43 | an empty URL, and only that, raises ValueError; otherwise the client keeps the credentials, its base URL is the given URL minus a run of trailing slashes only, it has no trailing slash, and the WebDAV root is `/remote.php/dav/files/` followed by the username |
| PathText.RStripSpec | nextcloud-uploader/nextcloud_api.py:40 | `rstrip('/')` yields a prefix of its input, what it removed is all slashes, and the result does not end in a slash |
| PathText.LStripSpec | nextcloud-uploader/nextcloud_api.py:67 | `lstrip('/')` yields a suffix of its input, what it removed is all slashes, and the result does not start with a slash |
| PathText.StripUnique | nextcloud-uploader/nextcloud_api.py:67 | `strip('/')` of a text wrapped in runs of slashes, with no slash at either of its own ends, is that text |
| PathText.StripIgnoresOuterSlashes | nextcloud-uploader/nextcloud_api.py:63-67 | adding a slash in front of or behind a path does not change `strip('/')` of it |
| PathText.SplitSpec | nextcloud-uploader/nextcloud_api.py:67 | the parts of `split('/')` hold no slash, and joining them with '/' gives the input back |
| PathText.SplitJoin | nextcloud-uploader/nextcloud_api.py:67 | splitting a '/'-join of one or more slash-free parts gives exactly those parts, empty parts included |
| PathText.LastSegmentSpec | nextcloud-uploader/nextcloud_api.py:247 | the name taken from an href is slash-free, ends the href, and is preceded by a slash unless it is the whole href |
| PathText.LastSegmentIsLastPart | nextcloud-uploader/nextcloud_api.py:247 | the name is exactly the last element of `split('/')` |
| PathText.LastSegmentAfterSlash | nextcloud-uploader/nextcloud_api.py:247 | a slash-free name after the last slash is the name, whatever precedes it |
| PathText.LastSegmentAfterAnySlash | nextcloud-uploader/nextcloud_api.py:247 | whatever precedes a slash, the name taken from `u/v` is the name taken from `v` |
| Utf8.DecodeEncode | nextcloud-uploader/nextcloud_api.py:67 | decoding the UTF-8 encoding of any string gives the string back |
| Percent.Quote | nextcloud-uploader/nextcloud_api.py:67 | every result of `quote(s, safe='')` consists only of unreserved characters and `%XX` escapes with upper-case hex digits |
| Percent.Unquote | nextcloud-uploader/nextcloud_api.py:235 | `unquote` never makes a string longer: each escape collapses to one byte, and decoding yields at most one character per byte |
| Percent.UnquoteQuote | nextcloud-uploader/nextcloud_api.py:235 | `unquote(quote(s, safe=''))` is `s` for every string, non-ASCII included |
| Percent.QuoteInjective | nextcloud-uploader/nextcloud_api.py:67 | different segments quote to different texts |
| Percent.UnquoteJoinQuoted | nextcloud-uploader/nextcloud_api.py:235 | `unquote` applied to whole-segment `quote`s joined by '/' gives the segments joined by '/': the escapes of neighbouring segments decode together to the UTF-8 of the joined text |
| Percent.UnquoteQuotePath | nextcloud-uploader/nextcloud_api.py:235 | `unquote` of any path quoted segment by segment with its slashes kept gives the path back |
| Multistatus.DecodeQuotedHref | nextcloud-uploader/nextcloud_api.py:233-235 | an href a server writes for a path, quoting it segment by segment, decodes to that path |
| Multistatus.EntryOf | nextcloud-uploader/nextcloud_api.py:225-257 | a response yields an entry only if it has an href with text and a propstat; the entry's href, trailing slashes removed, is not the listed directory's, and its name holds no slash |
| Multistatus.EntryOfSpec | nextcloud-uploader/nextcloud_api.py:225-257 | a response yields an entry if and only if it has an href with text and a propstat, and its decoded href minus trailing slashes differs from the listed directory's; the entry holds that decoded href, the last segment of it, and whether `prop/resourcetype/collection` is present |
| Multistatus.EntryNameIsLastSegment | nextcloud-uploader/nextcloud_api.py:247 | an entry's name is a slash-free tail of its href (trailing slashes removed) that starts right after a slash or at the start |
| Multistatus.Listing | nextcloud-uploader/nextcloud_api.py:213-260 | the listing has at most one entry per response the server sent |
| Multistatus.ListingOrigins | nextcloud-uploader/nextcloud_api.py:224-257 | the listing is exactly the entries of the responses that yield one, in server order: each entry comes from a response that yields it, their positions strictly increase, and no response that yields an entry is missed |
| NextcloudClient.BuildUrl | nextcloud-uploader/nextcloud_api.py:52-70 | the URL is the base URL, the WebDAV root and a slash, followed by a path that decodes back to the remote path with its leading and trailing slashes stripped |
| NextcloudClient.EncodedSegments | nextcloud-uploader/nextcloud_api.py:67 | the encoded path splits back into exactly the quoted segments of the stripped path, each made of unreserved characters and escapes, each unquoting to its original segment |
| NextcloudClient.EncodePathRoundTrip | nextcloud-uploader/nextcloud_api.py:67 | splitting the encoded path, unquoting each segment and joining gives back the stripped path |
| NextcloudClient.EmptySegmentsKept | nextcloud-uploader/nextcloud_api.py:67 | empty segments survive encoding: the URL's path has as many segments as the stripped path, and a segment is empty in one exactly when it is empty in the other, so `a//b` keeps its empty middle segment |
| NextcloudClient.BuildUrlUsesStrippedPath | nextcloud-uploader/nextcloud_api.py:63-68 | the URL is the base URL, the WebDAV root and a slash, followed by the segments of `remote_path.strip('/')` each quoted with no safe characters and joined by '/' |
| NextcloudClient.UnquoteEncodePath | nextcloud-uploader/nextcloud_api.py:67 | `unquote` of the whole encoded path, as the client applies it to hrefs, gives back the remote path with its outer slashes stripped |
| NextcloudClient.BuildUrlInjective | nextcloud-uploader/nextcloud_api.py:63-68 | two remote paths give the same URL if and only if they are equal once leading and trailing slashes are stripped |
| NextcloudClient.BuildUrlIgnoresOuterSlashes | nextcloud-uploader/nextcloud_api.py:63-67 | `a/b`, `/a/b` and `a/b/` give the same URL |
| NextcloudClient.RootUrl | nextcloud-uploader/nextcloud_api.py:63-68 | the root (`/` or the empty path) gives the WebDAV root followed by a single slash |
| NextcloudClient.HandleResponse | nextcloud-uploader/nextcloud_api.py:72-92 | a success code never raises; any other status raises HttpError carrying that status if it lies in 400–599, and passes silently if it does not |
| NextcloudClient.AfterStatus | nextcloud-uploader/nextcloud_api.py:83-92 | for each operation, a status raises HttpError if and only if it lies in 400–599 and the operation does not tolerate it (405 for mkdir, 404 for list and delete); only list, on a non-404 status outside 400–599, goes on to parse; and it gives the return value each operation documents for its success and not-found statuses |
| NextcloudClient.RaisesOnlyForDocumentedErrorStatuses | nextcloud-uploader/nextcloud_api.py:80-92 | an operation raises for a status if and only if the documentation says it should and the status lies in 400–599 |
| NextcloudClient.ContentType | nextcloud-uploader/nextcloud_api.py:115-116 | the Content-Type is never empty; it is a non-empty guess when there is one, else `application/octet-stream` |
| NextcloudClient.UploadFile | nextcloud-uploader/nextcloud_api.py:111-136 | a missing local file raises FileNotFoundError and sends nothing; otherwise it sends one PUT to the path's URL with the Content-Type header; it returns only `True`; 200, 201 and 204, and every other status outside 400–599, return `True`; HttpError comes exactly from statuses in 400–599 and carries the reply's status; the transport error comes exactly from a failed connection |
| NextcloudClient.MkcolPathSameUrl | nextcloud-uploader/nextcloud_api.py:151-156 | the trailing slash `create_directory` adds does not change the URL |
| NextcloudClient.CreateDirectory | nextcloud-uploader/nextcloud_api.py:151-180 | it sends MKCOL to the path's own URL; 201 and 405 return `True`; HttpError comes exactly from statuses in 400–599 other than 405 and carries the reply's status; `None` is returned exactly for a status outside 400–599 other than 201 |
| NextcloudClient.ListDirectory | nextcloud-uploader/nextcloud_api.py:198-273 | it sends PROPFIND with `Depth: 1` to the path's URL; 404 returns an empty list; HttpError comes exactly from statuses in 400–599 other than 404 and carries the reply's status; ParseError comes exactly from a malformed body under a status that got past those checks; a well-formed body under such a status yields the listing extracted against the self href; every listed entry differs from the listed directory and has a slash-free name |
| NextcloudClient.SelfHref | nextcloud-uploader/nextcloud_api.py:215-221 | the self href starts with the WebDAV root; it is the root alone exactly when the path strips to nothing; and it does not end in a slash when the root does not, so it can match an href with its trailing slashes removed |
| NextcloudClient.ListingExcludesSelf | nextcloud-uploader/nextcloud_api.py:215-247 | no entry of a listing is the queried directory itself (after trailing slashes are removed), and no name holds a slash |
| NextcloudClient.SelfHrefIsRequestedPath | nextcloud-uploader/nextcloud_api.py:215-221 | for a client from the constructor whose username is non-empty and does not end in '/', the self href is the decoded path of the requested URL with its trailing slash removed |
| NextcloudClient.SelfHrefIgnoresOuterSlashes | nextcloud-uploader/nextcloud_api.py:216-221 | `docs`, `/docs` and `docs/` give the same self href |
| NextcloudClient.Delete | nextcloud-uploader/nextcloud_api.py:289-308 | it sends DELETE to the path's URL; 404 returns `False`; 204, and every other status outside 400–599, returns `True`; HttpError comes exactly from statuses in 400–599 other than 404 and carries the reply's status; it only ever returns a bool |
| NextcloudClient.CallsDependOnlyOnStrippedPath | nextcloud-uploader/nextcloud_api.py:63-67 | remote paths that agree once outer slashes are stripped lead every operation to send the same request and reach the same outcome |
| NextcloudClient.SelfResponseSkipped | nextcloud-uploader/nextcloud_api.py:233-244 | for a self href that is empty or does not end in '/', the directory's own response, whose href is the self href plus a trailing slash quoted segment by segment, yields no entry |
| NextcloudClient.FileResponseListed | nextcloud-uploader/nextcloud_api.py:233-258 | for a non-empty file name without '/', the response of a file inside the directory, its href quoted segment by segment, yields an entry with the decoded href, the file name and no directory flag |
| NextcloudClient.EchoedCollectionSkipped | nextcloud-uploader/nextcloud_api.py:215-244 | for a client from the constructor whose username is non-empty and does not end in '/', a response echoing the listed collection (its self href plus a trailing slash, quoted segment by segment) yields no entry |
| NextcloudClient.ListingOfDirectoryWithOneFile | nextcloud-uploader/nextcloud_api.py:211-260 | for any directory (the root too, when the WebDAV root does not end in '/'), a non-empty slash-free file name and hrefs quoted segment by segment, listing the directory whose 207 reply holds the directory itself and that one file gives exactly one entry: that file, by its name, not a directory |
| NextcloudClient.CreateDirectoryReturnsNoneOnOk | nextcloud-uploader/nextcloud_api.py:171-173 | a 200 reply to MKCOL, which is not among the accepted codes, makes `create_directory` return `None` |
| NextcloudClient.CreateDirectoryChecked | nextcloud-uploader/nextcloud_api.py:171-173 | the corrected `create_directory` returns `True` exactly for 201 and 405, and raises HttpError carrying the reply's status for every other status |
| NextcloudClient.CreateDirectoryCheckedAgrees | nextcloud-uploader/nextcloud_api.py:164-173 | the corrected and the written `create_directory` agree on every reply except those where the written one returns `None`; there the corrected one raises |

## Left out

- Network I/O and sessions. The HTTP exchange is an input (`Reply`): a status with a parsed body, or a connection failure. The proxy clearing at module load and the session's proxy settings are not modelled, because they only configure the transport.
- Credentials. The password is kept in the client, and basic auth is not modelled further: it only travels with each request.
- The upload body. Which bytes are sent is not modelled.
- File system and MIME guessing. `os.path.exists` and `mimetypes.guess_type` become the inputs `localExists` and `guessedType`. An `open()` failure on an existing path (a directory, or missing permissions) raises an OS error that the method does not catch; that case is not modelled.
- XML tokenising. The body is the tree `ElementTree` would build, reduced to what `list_directory` reads, or `Malformed` for a ParseError. Namespace handling and element order inside a `DAV:response` are not modelled.
- Diagnostics. All `print` output is left out, because it carries no behaviour.
- Other code. The `__main__` demonstration, the FastAPI wrapper, and any server-side state (what a later listing returns after an upload) are outside the client.
- Lone surrogates. Dafny's `char` cannot hold U+D800–U+DFFF. A remote path holding one makes `quote` raise UnicodeEncodeError in `_build_url` before any request is sent; that path is not modelled.
- Status codes outside HTTP's range. A status is any integer, and the model does not restrict it to 100–599.

## Findings

| source | as written | input that shows it | evidently intended | confidence | as-written member | corrected member |
|---|---|---|---|---|---|---|
| nextcloud-uploader/nextcloud_api.py:171-173 | the comment at line 173 says the call will raise for anything other than 201 or 405, but `_handle_response` only raises for 400–599, so the method falls through and returns `None` | a MKCOL reply with status 200 (or 204, or a 3xx the transport does not follow) | every status other than 201 and 405 raises, so the method returns `True` or raises, as its docstring's bool return type says | medium, not executed | NextcloudClient.CreateDirectoryReturnsNoneOnOk | NextcloudClient.CreateDirectoryChecked |

=== FILE: client.dfy ===
/**
 * `NextcloudClient`: the constructor, `_build_url`, `_handle_response`, and
 * the request/status/parsing logic of `upload_file`, `create_directory`,
 * `list_directory` and `delete`. Each operation is a function from its
 * arguments and the server's reply to the request it sends (if any) and what
 * the Python method returns or raises.
 */
module NextcloudClient {
  import opened Wrappers
  import opened PathText
  import Percent
  import opened Http
  import opened Multistatus

  const DavRoot: string := "/remote.php/dav/files/"
  const DefaultContentType: string := "application/octet-stream"

  /** A configured client: server URL without trailing slashes, credentials, and the user's WebDAV root. */
  datatype Client = Client(baseUrl: string, username: string, password: string, davBasePath: string)

  /** The exceptions the client's methods raise. */
  datatype Error =
    | EmptyServerUrl          // ValueError from the constructor
    | LocalFileNotFound       // FileNotFoundError before an upload
    | HttpError(status: int)  // requests.HTTPError from raise_for_status
    | TransportError          // any other requests.RequestException
    | XmlParseError           // ET.ParseError on a PROPFIND body

  /** The Python values the methods return: `True`/`False`, `None`, or a list of entries. */
  datatype Value = Bool(b: bool) | NoneValue | Entries(items: seq<Entry>)

  /** A method's return value, or the exception it raises. */
  type Outcome = Result<Value, Error>

  /** One method call: the request it sends (`None` when it raises before sending) and its outcome. */
  datatype Call = Call(sent: Option<Request>, outcome: Outcome)

  /** What the constructor establishes about every client it builds. */
  predicate Valid(c: Client)
  {
    && c.davBasePath == DavRoot + c.username
    && (c.baseUrl == [] || c.baseUrl[|c.baseUrl| - 1] != '/')
  }

  /** `NextcloudClient(nextcloud_url, username, password)`. */
  function New(url: string, username: string, password: string): (r: Result<Client, Error>)
    ensures r.Failure? <==> url == []
    ensures r.Failure? ==> r.error == EmptyServerUrl
    ensures r.Success? ==> Valid(r.value) && r.value.username == username && r.value.password == password
    ensures r.Success? ==>
      var base := r.value.baseUrl;
      |base| <= |url| && url[..|base|] == base && AllSlashes(url[|base|..])
  {
    if url == [] then Failure(EmptyServerUrl)
    else
      RStripSpec(url);
      Success(Client(RStrip(url), username, password, DavRoot + username))
  }

  // ----- URL construction -----

  /** The path part `_build_url` writes: `'/'.join(quote(part, safe='') for part in path.strip('/').split('/'))`. */
  function EncodePath(path: string): string
  {
    Percent.QuotePath(Strip(path))
  }

  /** Reads an encoded path back: split on '/', unquote each segment, join. */
  function DecodePath(encoded: string): string
  {
    Join(Percent.UnquoteAll(Split(encoded)))
  }

  /**
   * `_build_url(remote_path)`: the server URL and the WebDAV root, a slash,
   * then a path that decodes back to the remote path without its outer slashes.
   */
  function BuildUrl(c: Client, remotePath: string): (url: string)
    ensures |c.baseUrl + c.davBasePath + "/"| <= |url|
    ensures url[..|c.baseUrl + c.davBasePath + "/"|] == c.baseUrl + c.davBasePath + "/"
    ensures DecodePath(url[|c.baseUrl + c.davBasePath + "/"|..]) == Strip(remotePath)
  {
    var path := if |remotePath| > 0 && remotePath[0] == '/' then remotePath else "/" + remotePath;
    var prefix := c.baseUrl + c.davBasePath + "/";
    EncodePathRoundTrip(path);
    StripIgnoresOuterSlashes(remotePath);
    assert (prefix + EncodePath(path))[|prefix|..] == EncodePath(path);
    prefix + EncodePath(path)
  }

  /**
   * The encoded path splits back into exactly the quoted segments of the
   * stripped path; each is made only of unreserved characters and `%XX`
   * escapes, and unquotes to the segment it came from.
   */
  lemma EncodedSegments(path: string)
    ensures Split(EncodePath(path)) == Percent.QuoteAll(Split(Strip(path)))
    ensures forall i :: 0 <= i < |Split(EncodePath(path))| ==>
      && Percent.Escaped(Split(EncodePath(path))[i])
      && Percent.Unquote(Split(EncodePath(path))[i]) == Split(Strip(path))[i]
  {
    var segments := Split(Strip(path));
    var quoted := Percent.QuoteAll(segments);
    forall k | 0 <= k < |quoted|
      ensures '/' !in quoted[k] && Percent.Escaped(quoted[k]) && Percent.Unquote(quoted[k]) == segments[k]
    {
      Percent.EscapedIsSlashFreeAscii(quoted[k]);
      Percent.UnquoteQuote(segments[k]);
    }
    SplitJoin(quoted);
  }

  /** Decoding the encoded path gives back the stripped path: the URL loses nothing but outer slashes. */
  lemma EncodePathRoundTrip(path: string)
    ensures DecodePath(EncodePath(path)) == Strip(path)
  {
    var segments := Split(Strip(path));
    EncodedSegments(path);
    assert Percent.UnquoteAll(Split(EncodePath(path))) == segments;
    SplitSpec(Strip(path));
  }

  /** `unquote`, applied to the whole encoded path as the client applies it to hrefs, gives back the stripped path. */
  lemma UnquoteEncodePath(path: string)
    ensures Percent.Unquote(EncodePath(path)) == Strip(path)
  {
    Percent.UnquoteQuotePath(Strip(path));
  }

  /** `_build_url` depends on the remote path only through `remote_path.strip('/')`. */
  lemma BuildUrlUsesStrippedPath(c: Client, remotePath: string)
    ensures BuildUrl(c, remotePath) == c.baseUrl + c.davBasePath + "/" + Join(Percent.QuoteAll(Split(Strip(remotePath))))
  {
  }

  /**
   * Empty segments survive encoding: `a//b` keeps its empty middle segment,
   * and a segment of the URL's path is empty exactly when the corresponding
   * segment of the stripped path is.
   */
  lemma EmptySegmentsKept(path: string)
    ensures |Split(EncodePath(path))| == |Split(Strip(path))|
    ensures forall i :: 0 <= i < |Split(Strip(path))| ==>
      (Split(EncodePath(path))[i] == [] <==> Split(Strip(path))[i] == [])
  {
    EncodedSegments(path);
    var segments := Split(Strip(path));
    forall i | 0 <= i < |segments|
      ensures Percent.Quote(segments[i]) == [] <==> segments[i] == []
    {
      Percent.UnquoteQuote(segments[i]);
      assert Percent.Quote([]) == [];
    }
  }

  /** Two remote paths give the same URL exactly when they agree once outer slashes are stripped. */
  lemma BuildUrlInjective(c: Client, p: string, q: string)
    ensures BuildUrl(c, p) == BuildUrl(c, q) <==> Strip(p) == Strip(q)
  {
  }

  /** `"a/b"`, `"/a/b"` and `"/a/b/"` name the same URL. */
  lemma BuildUrlIgnoresOuterSlashes(c: Client, p: string)
    ensures BuildUrl(c, "/" + p) == BuildUrl(c, p)
    ensures BuildUrl(c, p + "/") == BuildUrl(c, p)
  {
    StripIgnoresOuterSlashes(p);
    BuildUrlInjective(c, "/" + p, p);
    BuildUrlInjective(c, p + "/", p);
  }

  /** The root path keeps a trailing slash after the WebDAV root, as the code writes it. */
  lemma RootUrl(c: Client)
    ensures BuildUrl(c, "/") == c.baseUrl + c.davBasePath + "/"
    ensures BuildUrl(c, "") == c.baseUrl + c.davBasePath + "/"
  {
  }

  // ----- status handling -----

  /** The four methods that talk to the server. */
  datatype Operation = UploadOp | MkdirOp | ListOp | DeleteOp

  /** The `success_codes` each method passes to `_handle_response`. */
  function SuccessCodes(op: Operation): set<int>
  {
    match op
    case UploadOp => {200, 201, 204}
    case MkdirOp => {201, 405}
    case ListOp => {207}
    case DeleteOp => {204}
  }

  /** The error-range statuses a method answers without raising. */
  function Tolerated(op: Operation): set<int>
  {
    match op
    case UploadOp => {}
    case MkdirOp => {405}
    case ListOp => {404}
    case DeleteOp => {404}
  }

  /**
   * `_handle_response(response, success_codes)`: the exception it raises, if
   * any. A status outside `success_codes` raises only when
   * `raise_for_status` does, and the error carries that status.
   */
  function HandleResponse(status: int, successCodes: set<int>): (raised: Option<Error>)
    ensures status in successCodes ==> raised.None?
    ensures status !in successCodes && 400 <= status < 600 ==> raised == Some(HttpError(status))
    ensures (status < 400 || status >= 600) ==> raised.None?
  {
    if status !in successCodes && RaisesForStatus(status) then Some(HttpError(status)) else None
  }

  /** What a method does with the status: finish with an outcome, or (listing only) go on to parse the body. */
  datatype Step = Finish(outcome: Outcome) | ParseBody

  /** The per-method status logic, including the checks each method makes before calling `_handle_response`. */
  function AfterStatus(op: Operation, status: int): (r: Step)
    ensures r.Finish? && r.outcome.Failure? <==> RaisesForStatus(status) && status !in Tolerated(op)
    ensures r.Finish? && r.outcome.Failure? ==> r.outcome.error == HttpError(status)
    ensures r.ParseBody? <==> op == ListOp && status != 404 && !RaisesForStatus(status)
    ensures op == UploadOp && status in {200, 201, 204} ==> r == Finish(Success(Bool(true)))
    ensures op == UploadOp && !RaisesForStatus(status) ==> r == Finish(Success(Bool(true)))
    ensures op == MkdirOp && status in {201, 405} ==> r == Finish(Success(Bool(true)))
    ensures op == MkdirOp && status != 201 && !RaisesForStatus(status) ==> r == Finish(Success(NoneValue))
    ensures op == ListOp && status == 404 ==> r == Finish(Success(Entries([])))
    ensures op == DeleteOp && status == 404 ==> r == Finish(Success(Bool(false)))
    ensures op == DeleteOp && status != 404 && !RaisesForStatus(status) ==> r == Finish(Success(Bool(true)))
  {
    var handled := HandleResponse(status, SuccessCodes(op));
    match op
    case UploadOp =>
      if handled.Some? then Finish(Failure(handled.value)) else Finish(Success(Bool(true)))
    case MkdirOp =>
      if status == 201 then Finish(Success(Bool(true)))
      else if status == 405 then Finish(Success(Bool(true)))
      else if handled.Some? then Finish(Failure(handled.value))
      else Finish(Success(NoneValue))
    case ListOp =>
      if status == 404 then Finish(Success(Entries([])))
      else if handled.Some? then Finish(Failure(handled.value))
      else ParseBody
    case DeleteOp =>
      if status == 404 then Finish(Success(Bool(false)))
      else if handled.Some? then Finish(Failure(handled.value))
      else Finish(Success(Bool(true)))
  }

  /**
   * What the docstrings promise: `_handle_response` raises for any status
   * not in `success_codes`, and each method raises for every status it does
   * not list as success or tolerate.
   */
  predicate DocumentedRaise(op: Operation, status: int)
  {
    status !in SuccessCodes(op) && status !in Tolerated(op)
  }

  /**
   * The code raises exactly for the documented failures that lie in 400..599:
   * a status outside that range never raises, so `create_directory` returns
   * `None` on 200 and `upload_file` returns `True` on a redirect status.
   */
  lemma RaisesOnlyForDocumentedErrorStatuses(op: Operation, status: int)
    ensures (AfterStatus(op, status).Finish? && AfterStatus(op, status).outcome.Failure?)
      <==> DocumentedRaise(op, status) && RaisesForStatus(status)
  {
  }

  // ----- the four operations -----

  /** `Content-Type`: the guessed type, or `application/octet-stream` when there is no (non-empty) guess. */
  function ContentType(guess: Option<string>): (t: string)
    ensures t != []
    ensures t == DefaultContentType || guess == Some(t)
    ensures guess.Some? && guess.value != [] ==> t == guess.value
  {
    if guess.Some? && guess.value != [] then guess.value else DefaultContentType
  }

  /**
   * `upload_file(local_file_path, remote_path)`, with `os.path.exists` and
   * `mimetypes.guess_type` supplied as `localExists` and `guessedType`.
   */
  function UploadFile(c: Client, localExists: bool, guessedType: Option<string>, remotePath: string, reply: Reply): (r: Call)
    ensures r.sent.None? <==> !localExists
    ensures !localExists ==> r.outcome == Failure(LocalFileNotFound)
    ensures localExists ==>
      r.sent == Some(Request(PUT, BuildUrl(c, remotePath), [("Content-Type", ContentType(guessedType))]))
    ensures r.outcome.Success? ==> r.outcome.value == Bool(true)
    ensures localExists && reply.Responded? && reply.status in {200, 201, 204} ==> r.outcome == Success(Bool(true))
    ensures localExists && reply.Responded? && !RaisesForStatus(reply.status) ==> r.outcome == Success(Bool(true))
    ensures r.outcome == Failure(TransportError) <==> localExists && reply.ConnectionFailed?
    ensures (r.outcome.Failure? && r.outcome.error.HttpError?)
      <==> localExists && reply.Responded? && RaisesForStatus(reply.status)
    ensures r.outcome.Failure? && r.outcome.error.HttpError? ==> reply.Responded? && r.outcome.error.status == reply.status
  {
    if !localExists then Call(None, Failure(LocalFileNotFound))
    else
      var request := Request(PUT, BuildUrl(c, remotePath), [("Content-Type", ContentType(guessedType))]);
      match reply
      case ConnectionFailed => Call(Some(request), Failure(TransportError))
      case Responded(status, _) => Call(Some(request), AfterStatus(UploadOp, status).outcome)
  }

  /** The path `create_directory` hands to `_build_url`: a trailing slash is added unless present or the path is `/`. */
  function MkcolPath(remotePath: string): string
  {
    if remotePath != "/" && !(|remotePath| > 0 && remotePath[|remotePath| - 1] == '/') then remotePath + "/"
    else remotePath
  }

  /** `create_directory(remote_path)`. */
  function CreateDirectory(c: Client, remotePath: string, reply: Reply): (r: Call)
    ensures r.sent == Some(Request(MKCOL, BuildUrl(c, remotePath), []))
    ensures reply.Responded? && reply.status in {201, 405} ==> r.outcome == Success(Bool(true))
    ensures (r.outcome.Failure? && r.outcome.error.HttpError?)
      <==> reply.Responded? && RaisesForStatus(reply.status) && reply.status != 405
    ensures r.outcome.Failure? && r.outcome.error.HttpError? ==> reply.Responded? && r.outcome.error.status == reply.status
    ensures r.outcome == Success(NoneValue)
      <==> reply.Responded? && reply.status != 201 && !RaisesForStatus(reply.status)
    ensures r.outcome == Failure(TransportError) <==> reply.ConnectionFailed?
  {
    var url := BuildUrl(c, MkcolPath(remotePath));
    MkcolPathSameUrl(c, remotePath);
    var request := Request(MKCOL, url, []);
    match reply
    case ConnectionFailed => Call(Some(request), Failure(TransportError))
    case Responded(status, _) => Call(Some(request), AfterStatus(MkdirOp, status).outcome)
  }

  /**
   * As written, `create_directory` answers a 200 (or any other status below
   * 400 besides 201) by falling off the end of its `try` block: it returns
   * `None`, neither the documented bool nor an exception.
   */
  lemma CreateDirectoryReturnsNoneOnOk(c: Client, remotePath: string, body: Body)
    ensures CreateDirectory(c, remotePath, Responded(200, body)).outcome == Success(NoneValue)
    ensures 200 !in SuccessCodes(MkdirOp)
  {
  }

  /**
   * `create_directory` as its comment at the `_handle_response` call intends
   * it: every status other than 201 and 405 raises, so a returned value is
   * always `True`.
   */
  function CreateDirectoryChecked(c: Client, remotePath: string, reply: Reply): (r: Call)
    ensures r.sent == Some(Request(MKCOL, BuildUrl(c, remotePath), []))
    ensures r.outcome.Success? ==> r.outcome.value == Bool(true)
    ensures r.outcome.Success? <==> reply.Responded? && reply.status in SuccessCodes(MkdirOp)
    ensures (r.outcome.Failure? && r.outcome.error.HttpError?)
      <==> reply.Responded? && reply.status !in SuccessCodes(MkdirOp)
    ensures r.outcome.Failure? && r.outcome.error.HttpError? ==> reply.Responded? && r.outcome.error.status == reply.status
    ensures r.outcome == Failure(TransportError) <==> reply.ConnectionFailed?
  {
    MkcolPathSameUrl(c, remotePath);
    var request := Request(MKCOL, BuildUrl(c, MkcolPath(remotePath)), []);
    match reply
    case ConnectionFailed => Call(Some(request), Failure(TransportError))
    case Responded(status, _) =>
      if status in SuccessCodes(MkdirOp) then Call(Some(request), Success(Bool(true)))
      else Call(Some(request), Failure(HttpError(status)))
  }

  /** The corrected `create_directory` differs from the code only where the code returns `None`. */
  lemma CreateDirectoryCheckedAgrees(c: Client, remotePath: string, reply: Reply)
    ensures CreateDirectory(c, remotePath, reply).outcome != Success(NoneValue)
      ==> CreateDirectoryChecked(c, remotePath, reply) == CreateDirectory(c, remotePath, reply)
    ensures CreateDirectory(c, remotePath, reply).outcome == Success(NoneValue)
      ==> CreateDirectoryChecked(c, remotePath, reply).outcome == Failure(HttpError(reply.status))
  {
    var written := CreateDirectory(c, remotePath, reply);
    var intended := CreateDirectoryChecked(c, remotePath, reply);
    assert written.sent == intended.sent;
    match reply
    case ConnectionFailed =>
      assert written.outcome == intended.outcome;
    case Responded(status, _) =>
      if status in SuccessCodes(MkdirOp) {
        assert written.outcome == intended.outcome;
      } else if RaisesForStatus(status) {
        assert written.outcome.Failure? && written.outcome.error.HttpError?;
      }
  }

  /** The slash `create_directory` appends is stripped again, so MKCOL goes to the path's own URL. */
  lemma MkcolPathSameUrl(c: Client, remotePath: string)
    ensures BuildUrl(c, MkcolPath(remotePath)) == BuildUrl(c, remotePath)
  {
    if MkcolPath(remotePath) != remotePath {
      BuildUrlIgnoresOuterSlashes(c, remotePath);
    }
  }

  /**
   * The href `list_directory` treats as the listed directory itself:
   * the WebDAV root followed by the stripped path, or the root alone.
   */
  function SelfHref(c: Client, remotePath: string): (h: string)
    ensures |c.davBasePath| <= |h| && h[..|c.davBasePath|] == c.davBasePath
    ensures h == c.davBasePath <==> Strip(remotePath) == []
    ensures c.davBasePath != [] && c.davBasePath[|c.davBasePath| - 1] != '/' ==> h[|h| - 1] != '/'
  {
    var normalized := Strip(remotePath);
    StripSpec(remotePath);
    if normalized != [] then c.davBasePath + "/" + normalized else c.davBasePath
  }

  /** No entry of a listing is the directory being listed, and no name holds a slash. */
  lemma ListingExcludesSelf(responses: seq<Response>, selfHref: string)
    ensures forall i :: 0 <= i < |Listing(responses, selfHref)| ==>
      && RStrip(Listing(responses, selfHref)[i].href) != selfHref
      && '/' !in Listing(responses, selfHref)[i].name
  {
    var entries := Listing(responses, selfHref);
    var origin := ListingOrigins(responses, selfHref);
    forall i | 0 <= i < |entries|
      ensures RStrip(entries[i].href) != selfHref && '/' !in entries[i].name
    {
      var e := EntryOf(responses[origin[i]], selfHref);
    }
  }

  /** `list_directory(remote_path)`. */
  function ListDirectory(c: Client, remotePath: string, reply: Reply): (r: Call)
    ensures r.sent == Some(Request(PROPFIND, BuildUrl(c, remotePath), [("Depth", "1")]))
    ensures reply.Responded? && reply.status == 404 ==> r.outcome == Success(Entries([]))
    ensures (r.outcome.Failure? && r.outcome.error.HttpError?)
      <==> reply.Responded? && RaisesForStatus(reply.status) && reply.status != 404
    ensures r.outcome.Failure? && r.outcome.error.HttpError? ==> reply.Responded? && r.outcome.error.status == reply.status
    ensures r.outcome == Failure(XmlParseError)
      <==> reply.Responded? && reply.body.Malformed? && reply.status != 404 && !RaisesForStatus(reply.status)
    ensures r.outcome == Failure(TransportError) <==> reply.ConnectionFailed?
    ensures r.outcome.Success? ==> r.outcome.value.Entries?
    ensures reply.Responded? && reply.body.Document? && reply.status != 404 && !RaisesForStatus(reply.status)
      ==> r.outcome == Success(Entries(Listing(reply.body.responses, SelfHref(c, remotePath))))
    ensures r.outcome.Success? ==> forall i :: 0 <= i < |r.outcome.value.items| ==>
      RStrip(r.outcome.value.items[i].href) != SelfHref(c, remotePath) && '/' !in r.outcome.value.items[i].name
  {
    var request := Request(PROPFIND, BuildUrl(c, remotePath), [("Depth", "1")]);
    match reply
    case ConnectionFailed => Call(Some(request), Failure(TransportError))
    case Responded(status, body) =>
      match AfterStatus(ListOp, status)
      case Finish(outcome) => Call(Some(request), outcome)
      case ParseBody =>
        match body
        case Malformed => Call(Some(request), Failure(XmlParseError))
        case Document(responses) =>
          var selfHref := SelfHref(c, remotePath);
          ListingExcludesSelf(responses, selfHref);
          Call(Some(request), Success(Entries(Listing(responses, selfHref))))
  }

  /** `delete(remote_path)`. */
  function Delete(c: Client, remotePath: string, reply: Reply): (r: Call)
    ensures r.sent == Some(Request(DELETE, BuildUrl(c, remotePath), []))
    ensures reply.Responded? && reply.status == 404 ==> r.outcome == Success(Bool(false))
    ensures reply.Responded? && reply.status == 204 ==> r.outcome == Success(Bool(true))
    ensures (r.outcome.Failure? && r.outcome.error.HttpError?)
      <==> reply.Responded? && RaisesForStatus(reply.status) && reply.status != 404
    ensures r.outcome.Failure? && r.outcome.error.HttpError? ==> reply.Responded? && r.outcome.error.status == reply.status
    ensures reply.Responded? && reply.status != 404 && !RaisesForStatus(reply.status) ==> r.outcome == Success(Bool(true))
    ensures r.outcome == Failure(TransportError) <==> reply.ConnectionFailed?
    ensures r.outcome.Success? ==> r.outcome.value.Bool?
  {
    var request := Request(DELETE, BuildUrl(c, remotePath), []);
    match reply
    case ConnectionFailed => Call(Some(request), Failure(TransportError))
    case Responded(status, _) => Call(Some(request), AfterStatus(DeleteOp, status).outcome)
  }

  // ----- properties across operations -----

  /** The self href is the same for `"/docs"`, `"docs"` and `"/docs/"`. */
  lemma SelfHrefIgnoresOuterSlashes(c: Client, p: string)
    ensures SelfHref(c, "/" + p) == SelfHref(c, p)
    ensures SelfHref(c, p + "/") == SelfHref(c, p)
  {
    StripIgnoresOuterSlashes(p);
  }

  /**
   * Remote paths that agree once outer slashes are stripped are
   * interchangeable: every operation sends the same request and reaches the
   * same outcome for them.
   */
  lemma CallsDependOnlyOnStrippedPath(c: Client, p: string, q: string, localExists: bool, guessedType: Option<string>, reply: Reply)
    requires Strip(p) == Strip(q)
    ensures UploadFile(c, localExists, guessedType, p, reply) == UploadFile(c, localExists, guessedType, q, reply)
    ensures CreateDirectory(c, p, reply) == CreateDirectory(c, q, reply)
    ensures CreateDirectoryChecked(c, p, reply) == CreateDirectoryChecked(c, q, reply)
    ensures ListDirectory(c, p, reply) == ListDirectory(c, q, reply)
    ensures Delete(c, p, reply) == Delete(c, q, reply)
  {
    BuildUrlInjective(c, p, q);
  }

  /**
   * For a client built by the constructor with a non-empty username that does
   * not end in '/', the self href is what the request URL's path decodes to,
   * with the trailing slash removed.
   */
  lemma SelfHrefIsRequestedPath(c: Client, remotePath: string)
    requires Valid(c)
    requires c.username != [] && c.username[|c.username| - 1] != '/'
    ensures RStrip(c.davBasePath + "/" + DecodePath(EncodePath(remotePath))) == SelfHref(c, remotePath)
  {
    EncodePathRoundTrip(remotePath);
    var dav := c.davBasePath;
    var t := Strip(remotePath);
    StripSpec(remotePath);
    assert dav[|dav| - 1] == c.username[|c.username| - 1];
    if t == [] {
      assert dav + "/" + t == dav + "/";
      RStripSlashSuffix(dav, "/");
    } else {
      RStripSlashSuffix(dav + "/" + t, []);
      assert dav + "/" + t + [] == dav + "/" + t;
    }
  }

  // ----- listing a directory with one file -----

  /** A `DAV:response` whose href text is `href`, a collection or not. */
  function PlainResponse(href: string, collection: bool): Response
  {
    Response(Some(Href(Some(href))), Some(Propstat(Some(Prop(Some(ResourceType(collection)))))))
  }

  /**
   * The directory's own response, its href the directory path plus a trailing
   * slash quoted segment by segment, yields no entry.
   */
  lemma SelfResponseSkipped(dir: string)
    requires dir == [] || dir[|dir| - 1] != '/'
    ensures EntryOf(PlainResponse(Percent.QuotePath(dir + "/"), true), dir) == None
  {
    Percent.UnquoteQuotePath(dir + "/");
    RStripSlashSuffix(dir, "/");
  }

  /** A file's response inside the directory, its href quoted segment by segment, yields an entry named after the file. */
  lemma FileResponseListed(dir: string, name: string)
    requires name != [] && '/' !in name
    ensures EntryOf(PlainResponse(Percent.QuotePath(dir + "/" + name), false), dir) == Some(Entry(dir + "/" + name, name, false))
  {
    var file := dir + "/" + name;
    Percent.UnquoteQuotePath(file);
    assert file[|file| - 1] == name[|name| - 1];
    RStripSlashSuffix(file, "");
    assert file + "" == file;
    assert RStrip(file) != dir by {
      assert |file| > |dir|;
    }
    LastSegmentAfterSlash(dir, name);
  }

  /**
   * A server that echoes the listed collection back, writing its href segment
   * by segment with a trailing slash, has that entry dropped, for a client
   * built by the constructor with a non-empty username that does not end in '/'.
   */
  lemma EchoedCollectionSkipped(c: Client, remotePath: string)
    requires Valid(c)
    requires c.username != [] && c.username[|c.username| - 1] != '/'
    ensures EntryOf(PlainResponse(Percent.QuotePath(SelfHref(c, remotePath) + "/"), true), SelfHref(c, remotePath)) == None
  {
    assert c.davBasePath[|c.davBasePath| - 1] == c.username[|c.username| - 1];
    SelfResponseSkipped(SelfHref(c, remotePath));
  }

  /**
   * After a file `name` is uploaded into a directory, listing that directory
   * against a server that answers 207 with the directory itself and the file,
   * hrefs quoted segment by segment, yields exactly one entry: the file, by
   * its name, not a directory. The root qualifies when the WebDAV root does
   * not end in '/'.
   */
  lemma ListingOfDirectoryWithOneFile(c: Client, remotePath: string, name: string)
    requires Strip(remotePath) != [] || c.davBasePath == [] || c.davBasePath[|c.davBasePath| - 1] != '/'
    requires name != [] && '/' !in name
    ensures
      var dir := SelfHref(c, remotePath);
      var responses := [
        PlainResponse(Percent.QuotePath(dir + "/"), true),
        PlainResponse(Percent.QuotePath(dir + "/" + name), false)];
      ListDirectory(c, remotePath, Responded(207, Document(responses))).outcome
        == Success(Entries([Entry(dir + "/" + name, name, false)]))
  {
    var dir := SelfHref(c, remotePath);
    var file := dir + "/" + name;
    StripSpec(remotePath);
    assert dir == [] || dir[|dir| - 1] != '/';
    SelfResponseSkipped(dir);
    FileResponseListed(dir, name);
    var responses := [PlainResponse(Percent.QuotePath(dir + "/"), true), PlainResponse(Percent.QuotePath(file), false)];
    var f := resp => EntryOf(resp, dir);
    assert responses[1..][1..] == [];
    assert Collect(f, responses[1..]) == [Entry(file, name, false)];
    assert Listing(responses, dir) == Collect(f, responses);
  }

}

=== FILE: http.dfy ===
/**
 * The HTTP exchange as the client sees it once the network round trip is
 * taken out: the request it would send, and the reply (status and parsed
 * body) or transport failure that comes back.
 */
module Http {
  import Multistatus

  /** HTTP PUT, and the WebDAV methods MKCOL, PROPFIND and DELETE (sections 9.3, 9.1 and 9.6 of RFC 4918). */
  datatype Verb = PUT | MKCOL | PROPFIND | DELETE

  /** A request the client issues; basic-auth credentials and the upload body travel with it but are not modelled. */
  datatype Request = Request(verb: Verb, url: string, headers: seq<(string, string)>)

  /**
   * What one exchange yields: a status with the body as the XML parser
   * would read it, or a failure below HTTP (refused connection, timeout,
   * DNS), which `requests` raises as a `RequestException`.
   */
  datatype Reply = Responded(status: int, body: Multistatus.Body) | ConnectionFailed

  /** `Response.raise_for_status()` raises for client and server errors, 400 to 599, and for nothing else. */
  predicate RaisesForStatus(status: int)
  {
    400 <= status < 600
  }
}

=== FILE: multistatus.dfy ===
/**
 * The PROPFIND multi-status document (section 9.1 of RFC 4918) as the client
 * sees it after XML parsing, and the extraction of directory entries from it.
 * Only what `list_directory` looks up is kept: each `DAV:response` child of
 * the root, its first `DAV:href` and `DAV:propstat` children, and below the
 * property block whether `resourcetype` holds a `collection` element.
 */
module Multistatus {
  import opened Wrappers
  import opened PathText
  import Percent

  /** `DAV:resourcetype`; `hasCollection` records whether a `DAV:collection` child is present. */
  datatype ResourceType = ResourceType(hasCollection: bool)

  /** `DAV:prop`, with its first `DAV:resourcetype` child if any. */
  datatype Prop = Prop(resourceType: Option<ResourceType>)

  /** `DAV:propstat`, with its first `DAV:prop` child if any. */
  datatype Propstat = Propstat(prop: Option<Prop>)

  /** `DAV:href`; `text` is `None` for an element without text content. */
  datatype Href = Href(text: Option<string>)

  /** One `DAV:response` element: its first `href` and `propstat` children, when present. */
  datatype Response = Response(href: Option<Href>, propstat: Option<Propstat>)

  /** A response body as the XML parser leaves it: the `DAV:response` children of the root, or a parse error. */
  datatype Body = Document(responses: seq<Response>) | Malformed

  /** One listed item: the decoded href, its last path segment, and whether it is a collection. */
  datatype Entry = Entry(href: string, name: string, isDir: bool)

  /**
   * Decoding of an href's text with `unquote`. The only failure is an element
   * without text (`unquote(None)` raises, and the entry is skipped); `unquote`
   * itself never fails on a string, since undecodable bytes become U+FFFD.
   */
  function DecodeHref(text: Option<string>): (r: Option<string>)
    ensures r.Some? <==> text.Some?
  {
    match text
    case None => None
    case Some(t) => Some(Percent.Unquote(t))
  }

  /** An href a server writes for `path`, quoting it segment by segment, decodes to `path`. */
  lemma DecodeQuotedHref(path: string)
    ensures DecodeHref(Some(Percent.QuotePath(path))) == Some(path)
  {
    Percent.UnquoteQuotePath(path);
  }

  /** `propstat/prop/resourcetype/collection` is present. */
  predicate IsCollection(ps: Propstat)
  {
    && ps.prop.Some?
    && ps.prop.value.resourceType.Some?
    && ps.prop.value.resourceType.value.hasCollection
  }

  /** The response has the parts an entry needs: an href with text, and a propstat. */
  predicate Usable(resp: Response)
  {
    resp.href.Some? && resp.propstat.Some? && resp.href.value.text.Some?
  }

  /** The decoded href of a usable response. */
  function DecodedHref(resp: Response): string
    requires Usable(resp)
  {
    Percent.Unquote(resp.href.value.text.value)
  }

  /**
   * The entry one `DAV:response` contributes to a listing, or `None` when it
   * is skipped: href or propstat missing, href without text, or the href
   * (trailing slashes removed) equal to `selfHref`, the queried directory.
   */
  function EntryOf(resp: Response, selfHref: string): (r: Option<Entry>)
    ensures r.Some? ==> Usable(resp) && RStrip(r.value.href) != selfHref && '/' !in r.value.name
  {
    if resp.href.None? || resp.propstat.None? then None
    else
      match DecodeHref(resp.href.value.text)
      case None => None
      case Some(href) =>
        if RStrip(href) == selfHref then None
        else
          LastSegmentSlashFree(RStrip(href));
          Some(Entry(href, LastSegment(RStrip(href)), IsCollection(resp.propstat.value)))
  }

  /** When a response yields an entry, and what that entry holds. */
  lemma EntryOfSpec(resp: Response, selfHref: string)
    ensures EntryOf(resp, selfHref).Some? <==> Usable(resp) && RStrip(DecodedHref(resp)) != selfHref
    ensures EntryOf(resp, selfHref).Some? ==>
      var e := EntryOf(resp, selfHref).value;
      && e.href == DecodedHref(resp)
      && e.name == LastSegment(RStrip(e.href))
      && (e.isDir <==> IsCollection(resp.propstat.value))
  {
  }

  /** The entry's name is a slash-free tail of its href with trailing slashes removed, starting right after a slash or at the start. */
  lemma EntryNameIsLastSegment(resp: Response, selfHref: string)
    requires EntryOf(resp, selfHref).Some?
    ensures var e := EntryOf(resp, selfHref).value;
      var h := RStrip(e.href);
      && '/' !in e.name
      && |e.name| <= |h|
      && h[|h| - |e.name|..] == e.name
      && (|e.name| == |h| || h[|h| - |e.name| - 1] == '/')
  {
    var e := EntryOf(resp, selfHref).value;
    LastSegmentSpec(RStrip(e.href));
  }

  /**
   * The values `f` yields over `xs`, in order, skipping the elements for
   * which it yields `None`: the shape of a loop that appends some of its
   * elements' images to a list.
   */
  function Collect<A, B>(f: A -> Option<B>, xs: seq<A>): (ys: seq<B>)
    ensures |ys| <= |xs|
    decreases |xs|
  {
    if xs == [] then []
    else
      match f(xs[0])
      case Some(y) => [y] + Collect(f, xs[1..])
      case None => Collect(f, xs[1..])
  }

  /** The positions in `xs` whose images `Collect` keeps, in order. */
  function Origins<A, B>(f: A -> Option<B>, xs: seq<A>): (origin: seq<nat>)
    ensures |origin| == |Collect(f, xs)|
    decreases |xs|
  {
    if xs == [] then []
    else
      var rest := Origins(f, xs[1..]);
      var shifted := seq(|rest|, i requires 0 <= i < |rest| => rest[i] + 1);
      if f(xs[0]).Some? then [0] + shifted else shifted
  }

  /** Each kept value comes, as `f`'s image, from the position `Origins` records for it. */
  lemma {:induction false} OriginsSound<A, B>(f: A -> Option<B>, xs: seq<A>)
    ensures forall i {:trigger Origins(f, xs)[i]} :: 0 <= i < |Origins(f, xs)| ==>
      Origins(f, xs)[i] < |xs| && f(xs[Origins(f, xs)[i]]) == Some(Collect(f, xs)[i])
    decreases |xs|
  {
    if xs != [] {
      var tail := xs[1..];
      OriginsSound(f, tail);
      var rest := Origins(f, tail);
      var collected := Collect(f, tail);
      var shifted := seq(|rest|, i requires 0 <= i < |rest| => rest[i] + 1);
      if f(xs[0]).Some? {
        assert Origins(f, xs) == [0] + shifted;
        assert Collect(f, xs) == [f(xs[0]).value] + collected;
        forall i {:trigger Origins(f, xs)[i]} | 0 <= i < |Origins(f, xs)|
          ensures Origins(f, xs)[i] < |xs| && f(xs[Origins(f, xs)[i]]) == Some(Collect(f, xs)[i])
        {
          if i > 0 {
            assert collected[i - 1] == Collect(f, xs)[i];
            assert xs[shifted[i - 1]] == tail[rest[i - 1]];
          }
        }
      } else {
        assert Origins(f, xs) == shifted;
        assert Collect(f, xs) == collected;
        forall i {:trigger Origins(f, xs)[i]} | 0 <= i < |Origins(f, xs)|
          ensures Origins(f, xs)[i] < |xs| && f(xs[Origins(f, xs)[i]]) == Some(Collect(f, xs)[i])
        {
          assert collected[i] == Collect(f, xs)[i];
          assert xs[shifted[i]] == tail[rest[i]];
        }
      }
    } else {
      assert |Origins(f, xs)| == 0;
    }
  }

  /** The recorded positions strictly increase: `Collect` preserves the order of `xs`. */
  lemma {:induction false} OriginsIncreasing<A, B>(f: A -> Option<B>, xs: seq<A>)
    ensures forall i, j :: 0 <= i < j < |Origins(f, xs)| ==> Origins(f, xs)[i] < Origins(f, xs)[j]
    decreases |xs|
  {
    if xs != [] {
      OriginsIncreasing(f, xs[1..]);
    }
  }

  /** Every position whose image `f` accepts is recorded: nothing accepted is dropped. */
  lemma {:induction false} OriginsComplete<A, B>(f: A -> Option<B>, xs: seq<A>)
    ensures forall k :: 0 <= k < |xs| && f(xs[k]).Some? ==> k in Origins(f, xs)
    decreases |xs|
  {
    if xs != [] {
      var tail := xs[1..];
      OriginsComplete(f, tail);
      var rest := Origins(f, tail);
      var origin := Origins(f, xs);
      var offset := if f(xs[0]).Some? then 1 else 0;
      forall k | 0 <= k < |xs| && f(xs[k]).Some?
        ensures k in origin
      {
        if k == 0 {
          assert origin[0] == k;
        } else {
          assert xs[k] == tail[k - 1];
          var i :| 0 <= i < |rest| && rest[i] == k - 1;
          assert origin[i + offset] == k;
        }
      }
    }
  }

  /** The items `list_directory` collects, in the order the server sent the responses. */
  function Listing(responses: seq<Response>, selfHref: string): (entries: seq<Entry>)
    ensures |entries| <= |responses|
  {
    Collect(resp => EntryOf(resp, selfHref), responses)
  }

  /**
   * The listing is exactly the entries of the usable, non-self responses, in
   * server order: `origin[i]` is the position of the response that produced
   * entry `i`, the positions strictly increase, and every response that
   * yields an entry is one of them.
   */
  lemma ListingOrigins(responses: seq<Response>, selfHref: string) returns (origin: seq<nat>)
    ensures |origin| == |Listing(responses, selfHref)|
    ensures forall i :: 0 <= i < |origin| ==>
      origin[i] < |responses| && EntryOf(responses[origin[i]], selfHref) == Some(Listing(responses, selfHref)[i])
    ensures forall i, j :: 0 <= i < j < |origin| ==> origin[i] < origin[j]
    ensures forall k :: 0 <= k < |responses| && EntryOf(responses[k], selfHref).Some? ==> k in origin
  {
    var f := resp => EntryOf(resp, selfHref);
    origin := Origins(f, responses);
    OriginsSound(f, responses);
    OriginsIncreasing(f, responses);
    OriginsComplete(f, responses);
    assert Listing(responses, selfHref) == Collect(f, responses);
    forall i | 0 <= i < |origin|
      ensures origin[i] < |responses| && EntryOf(responses[origin[i]], selfHref) == Some(Listing(responses, selfHref)[i])
    {
      var y := Collect(f, responses)[i];
      assert origin[i] < |responses| && f(responses[origin[i]]) == Some(y);
    }
  }
}

=== FILE: pathtext.dfy ===
/**
 * The handful of Python `str` operations the client applies to remote paths
 * and hrefs, specialised to the separator '/': `lstrip('/')`, `rstrip('/')`,
 * `strip('/')`, `split('/')`, `'/'.join(...)` and `split('/')[-1]`.
 *
 * The functions carry only light contracts; what each one means is stated by
 * the lemma that follows it, so that a proof pulls in only the facts it asks for.
 */
module PathText {

  predicate AllSlashes(s: string) {
    forall i :: 0 <= i < |s| ==> s[i] == '/'
  }

  /** `s.lstrip('/')`. */
  function LStrip(s: string): (r: string)
    ensures |r| <= |s|
    decreases |s|
  {
    if |s| > 0 && s[0] == '/' then LStrip(s[1..]) else s
  }

  /** `s.rstrip('/')`. */
  function RStrip(s: string): (r: string)
    ensures |r| <= |s|
    decreases |s|
  {
    if |s| > 0 && s[|s| - 1] == '/' then RStrip(s[..|s| - 1]) else s
  }

  /** `s.strip('/')`. */
  function Strip(s: string): string
  {
    RStrip(LStrip(s))
  }

  /** `lstrip('/')` removes exactly the leading run of slashes. */
  lemma {:induction false} LStripSpec(s: string)
    ensures LStrip(s) == s[|s| - |LStrip(s)|..]
    ensures AllSlashes(s[..|s| - |LStrip(s)|])
    ensures LStrip(s) == [] || LStrip(s)[0] != '/'
    decreases |s|
  {
    if |s| > 0 && s[0] == '/' {
      LStripSpec(s[1..]);
      var k := |s| - |LStrip(s)|;
      assert s[..k] == [s[0]] + s[1..][..k - 1];
    }
  }

  /** `rstrip('/')` removes exactly the trailing run of slashes. */
  lemma {:induction false} RStripSpec(s: string)
    ensures RStrip(s) == s[..|RStrip(s)|]
    ensures AllSlashes(s[|RStrip(s)|..])
    ensures RStrip(s) == [] || RStrip(s)[|RStrip(s)| - 1] != '/'
    decreases |s|
  {
    if |s| > 0 && s[|s| - 1] == '/' {
      var init := s[..|s| - 1];
      RStripSpec(init);
      var k := |RStrip(s)|;
      assert s[k..] == init[k..] + [s[|s| - 1]];
    }
  }

  /** The result of `strip('/')` neither starts nor ends with a slash. */
  lemma StripSpec(s: string)
    ensures Strip(s) == [] || (Strip(s)[0] != '/' && Strip(s)[|Strip(s)| - 1] != '/')
  {
    var l := LStrip(s);
    LStripSpec(s);
    RStripSpec(l);
    var t := RStrip(l);
    if t != [] {
      assert t[0] == l[0];
    }
  }

  /** A slash-only prefix in front of a string that does not begin with a slash is what `lstrip('/')` removes. */
  lemma {:induction false} LStripSlashPrefix(x: string, u: string)
    requires AllSlashes(x)
    requires u == [] || u[0] != '/'
    ensures LStrip(x + u) == u
    decreases |x|
  {
    if |x| > 0 {
      assert (x + u)[1..] == x[1..] + u;
      LStripSlashPrefix(x[1..], u);
    } else {
      assert x + u == u;
    }
  }

  /** A slash-only suffix after a string that does not end with a slash is what `rstrip('/')` removes. */
  lemma {:induction false} RStripSlashSuffix(u: string, y: string)
    requires AllSlashes(y)
    requires u == [] || u[|u| - 1] != '/'
    ensures RStrip(u + y) == u
    decreases |y|
  {
    if |y| > 0 {
      assert (u + y)[..|u + y| - 1] == u + y[..|y| - 1];
      RStripSlashSuffix(u, y[..|y| - 1]);
    } else {
      assert u + y == u;
    }
  }

  /**
   * `strip('/')` characterised independently of its definition: when `s` is
   * some slashes, then a core that neither starts nor ends with a slash, then
   * some slashes, the result is exactly that core.
   */
  lemma StripUnique(x: string, t: string, y: string)
    requires AllSlashes(x) && AllSlashes(y)
    requires t == [] || (t[0] != '/' && t[|t| - 1] != '/')
    ensures Strip(x + t + y) == t
  {
    if t == [] {
      assert x + t + y == x + y;
      assert AllSlashes(x + y);
      LStripSlashPrefix(x + y, []);
      assert x + y + [] == x + y;
    } else {
      assert x + t + y == x + (t + y);
      LStripSlashPrefix(x, t + y);
      RStripSlashSuffix(t, y);
    }
  }

  /** Appending a slash to `s` appends one to its left-stripped form, unless that form is empty. */
  lemma {:induction false} LStripAppendSlash(s: string)
    ensures LStrip(s + "/") == if LStrip(s) == [] then [] else LStrip(s) + "/"
    decreases |s|
  {
    if |s| > 0 && s[0] == '/' {
      assert (s + "/")[1..] == s[1..] + "/";
      LStripAppendSlash(s[1..]);
    } else if |s| == 0 {
      assert LStrip("/") == LStrip([]);
    }
  }

  /** Leading and trailing slashes never change `strip('/')`. */
  lemma StripIgnoresOuterSlashes(s: string)
    ensures Strip("/" + s) == Strip(s)
    ensures Strip(s + "/") == Strip(s)
  {
    assert ("/" + s)[1..] == s;
    LStripAppendSlash(s);
    var l := LStrip(s);
    if l != [] {
      assert (l + "/")[..|l|] == l;
    }
  }

  /** Index of the first '/' in `s`, or `|s|` when there is none. */
  function SlashIndex(s: string): (i: nat)
    ensures i <= |s|
  {
    if s == [] || s[0] == '/' then 0 else SlashIndex(s[1..]) + 1
  }

  /** When `SlashIndex` stops before the end, it stops at a slash. */
  lemma {:induction false} SlashIndexFound(s: string)
    ensures SlashIndex(s) < |s| ==> s[SlashIndex(s)] == '/'
    decreases |s|
  {
    if s != [] && s[0] != '/' {
      SlashIndexFound(s[1..]);
    }
  }

  /** No slash comes before the one `SlashIndex` stops at. */
  lemma {:induction false} SlashIndexFirst(s: string)
    ensures '/' !in s[..SlashIndex(s)]
    decreases |s|
  {
    if s != [] && s[0] != '/' {
      SlashIndexFirst(s[1..]);
      var j := SlashIndex(s[1..]);
      assert s[..j + 1] == [s[0]] + s[1..][..j];
    }
  }

  /** A slash-free string is searched to its end. */
  lemma {:induction false} SlashIndexOfSlashFree(s: string)
    requires '/' !in s
    ensures SlashIndex(s) == |s|
  {
    SlashIndexFound(s);
  }

  /** The first slash of `u + v` is the first slash of `u`, or else the first slash of `v` past `u`. */
  lemma {:induction false} SlashIndexConcat(u: string, v: string)
    ensures SlashIndex(u + v) == if SlashIndex(u) < |u| then SlashIndex(u) else |u| + SlashIndex(v)
    decreases |u|
  {
    if u == [] {
      assert u + v == v;
    } else if u[0] != '/' {
      assert (u + v)[1..] == u[1..] + v;
      SlashIndexConcat(u[1..], v);
    }
  }

  /** `'/'.join(parts)`. */
  function Join(parts: seq<string>): string
  {
    if |parts| == 0 then []
    else if |parts| == 1 then parts[0]
    else parts[0] + "/" + Join(parts[1..])
  }

  /** `s.split('/')`: always at least one part; empty parts are kept. */
  function Split(s: string): (parts: seq<string>)
    ensures |parts| >= 1
    decreases |s|
  {
    var i := SlashIndex(s);
    if i == |s| then [s]
    else [s[..i]] + Split(s[i + 1..])
  }

  /** The parts of `split('/')` contain no slash. */
  lemma {:induction false} SplitSlashFree(s: string)
    ensures forall k :: 0 <= k < |Split(s)| ==> '/' !in Split(s)[k]
    decreases |s|
  {
    var i := SlashIndex(s);
    SlashIndexFirst(s);
    assert s[..|s|] == s;
    if i < |s| {
      var rest := Split(s[i + 1..]);
      SplitSlashFree(s[i + 1..]);
      assert Split(s) == [s[..i]] + rest;
    }
  }

  /** Joining a part in front of one or more parts puts a slash between them. */
  lemma JoinCons(head: string, rest: seq<string>)
    requires |rest| >= 1
    ensures Join([head] + rest) == head + "/" + Join(rest)
  {
    assert ([head] + rest)[1..] == rest;
  }

  /** A string with a slash at `i` is what precedes it, the slash, and what follows. */
  lemma SplitAroundSlash(s: string, i: nat)
    requires i < |s| && s[i] == '/'
    ensures s == s[..i] + "/" + s[i + 1..]
  {
    assert s == s[..i] + [s[i]] + s[i + 1..];
  }

  /** Joining the parts of `split('/')` with '/' gives `s` back. */
  lemma {:induction false} JoinSplit(s: string)
    ensures Join(Split(s)) == s
    decreases |s|
  {
    var i := SlashIndex(s);
    if i < |s| {
      var rest := Split(s[i + 1..]);
      assert Split(s) == [s[..i]] + rest;
      JoinCons(s[..i], rest);
      JoinSplit(s[i + 1..]);
      SlashIndexFound(s);
      SplitAroundSlash(s, i);
    }
  }

  /** The parts of `split('/')` contain no slash, and joining them with '/' gives `s` back. */
  lemma SplitSpec(s: string)
    ensures forall k :: 0 <= k < |Split(s)| ==> '/' !in Split(s)[k]
    ensures Join(Split(s)) == s
  {
    SplitSlashFree(s);
    JoinSplit(s);
  }

  /** A slash-free head followed by a slash splits off as the first part. */
  lemma SplitAfterSlashFree(head: string, t: string)
    requires '/' !in head
    ensures Split(head + ("/" + t)) == [head] + Split(t)
  {
    var tail := "/" + t;
    var s := head + tail;
    SlashIndexOfSlashFree(head);
    assert tail[0] == '/';
    assert SlashIndex(tail) == 0;
    SlashIndexConcat(head, tail);
    assert SlashIndex(s) == |head| < |s|;
    assert s[..|head|] == head;
    assert s[|head| + 1..] == t;
  }

  /** Splitting a join of slash-free parts gives the parts back. */
  lemma {:induction false} SplitJoin(parts: seq<string>)
    requires |parts| >= 1
    requires forall k :: 0 <= k < |parts| ==> '/' !in parts[k]
    ensures Split(Join(parts)) == parts
    decreases |parts|
  {
    var p0 := parts[0];
    SlashIndexOfSlashFree(p0);
    if |parts| > 1 {
      var rest := parts[1..];
      assert parts == [p0] + rest;
      JoinCons(p0, rest);
      assert p0 + "/" + Join(rest) == p0 + ("/" + Join(rest));
      SplitAfterSlashFree(p0, Join(rest));
      SplitJoin(rest);
    }
  }

  /**
   * `s.split('/')[-1]`: the text after the last slash of `s`, or all of `s`
   * when it has none.
   */
  function LastSegment(s: string): (name: string)
    ensures |name| <= |s|
    decreases |s|
  {
    var i := SlashIndex(s);
    if i == |s| then s else LastSegment(s[i + 1..])
  }

  /** The last segment holds no slash. */
  lemma {:induction false} LastSegmentSlashFree(s: string)
    ensures '/' !in LastSegment(s)
    decreases |s|
  {
    var i := SlashIndex(s);
    if i < |s| {
      LastSegmentSlashFree(s[i + 1..]);
    } else {
      SlashIndexFirst(s);
      assert s[..|s|] == s;
    }
  }

  /** The last segment ends `s`, and is preceded in `s` by a slash unless it is all of `s`. */
  lemma {:induction false} LastSegmentSuffix(s: string)
    ensures LastSegment(s) == s[|s| - |LastSegment(s)|..]
    ensures |LastSegment(s)| == |s| || s[|s| - |LastSegment(s)| - 1] == '/'
    decreases |s|
  {
    var i := SlashIndex(s);
    if i < |s| {
      SlashIndexFound(s);
      var rest := s[i + 1..];
      LastSegmentSuffix(rest);
      var name := LastSegment(rest);
      var k := |rest| - |name|;
      assert rest[k..] == s[i + 1 + k..];
      assert s[i + k] == if k == 0 then '/' else rest[k - 1];
    }
  }

  /** The last segment holds no slash, ends `s`, and is preceded in `s` by a slash unless it is all of `s`. */
  lemma LastSegmentSpec(s: string)
    ensures '/' !in LastSegment(s)
    ensures LastSegment(s) == s[|s| - |LastSegment(s)|..]
    ensures |LastSegment(s)| == |s| || s[|s| - |LastSegment(s)| - 1] == '/'
  {
    LastSegmentSlashFree(s);
    LastSegmentSuffix(s);
  }

  /** The recursive `LastSegment` is exactly the last part `split('/')` produces. */
  lemma {:induction false} LastSegmentIsLastPart(s: string)
    ensures LastSegment(s) == Split(s)[|Split(s)| - 1]
    decreases |s|
  {
    var i := SlashIndex(s);
    if i < |s| {
      var rest := Split(s[i + 1..]);
      assert Split(s) == [s[..i]] + rest;
      LastSegmentIsLastPart(s[i + 1..]);
      assert Split(s)[|Split(s)| - 1] == rest[|rest| - 1];
    }
  }

  /** When `u` holds a slash, the last segment of `u + v` lies past `u`'s first segment. */
  lemma LastSegmentSkipsFirstSegment(u: string, v: string)
    requires SlashIndex(u) < |u|
    ensures LastSegment(u + v) == LastSegment(u[SlashIndex(u) + 1..] + v)
  {
    var i := SlashIndex(u);
    SlashIndexConcat(u, v);
    assert SlashIndex(u + v) == i;
    assert (u + v)[i + 1..] == u[i + 1..] + v;
  }

  /** A slash-free string is its own last segment. */
  lemma LastSegmentOfSlashFree(name: string)
    requires '/' !in name
    ensures LastSegment(name) == name
  {
    SlashIndexOfSlashFree(name);
  }

  /** After a slash-free prefix and a slash, the last segment is the last segment of what follows. */
  lemma LastSegmentAfterOnlySlash(u: string, v: string)
    requires SlashIndex(u) == |u|
    ensures LastSegment(u + ("/" + v)) == LastSegment(v)
  {
    var tail := "/" + v;
    var s := u + tail;
    assert tail[0] == '/';
    assert SlashIndex(tail) == 0;
    SlashIndexConcat(u, tail);
    assert SlashIndex(s) == |u| < |s|;
    assert s[|u| + 1..] == v;
  }

  /** Whatever precedes a slash, the last segment is the last segment of what follows it. */
  lemma {:induction false} LastSegmentAfterAnySlash(u: string, v: string)
    ensures LastSegment(u + ("/" + v)) == LastSegment(v)
    decreases |u|
  {
    var i := SlashIndex(u);
    if i < |u| {
      LastSegmentSkipsFirstSegment(u, "/" + v);
      LastSegmentAfterAnySlash(u[i + 1..], v);
    } else {
      LastSegmentAfterOnlySlash(u, v);
    }
  }

  /** Whatever precedes it, a slash-free name after a slash is the last segment. */
  lemma LastSegmentAfterSlash(u: string, name: string)
    requires '/' !in name
    ensures LastSegment(u + "/" + name) == name
  {
    assert u + "/" + name == u + ("/" + name);
    LastSegmentAfterAnySlash(u, name);
    LastSegmentOfSlashFree(name);
  }

}

=== FILE: percent.dfy ===
/**
 * Percent-encoding as `urllib.parse` performs it: `quote(s, safe='')`, which
 * keeps only the unreserved characters of section 2.3 of RFC 3986 and writes
 * every other UTF-8 byte as `%XX` with upper-case hex digits, and `unquote`,
 * which turns `%XX` escapes back into bytes and decodes them as UTF-8 with
 * `errors='replace'`.
 */
module Percent {
  import opened Utf8
  import opened PathText

  /** The unreserved characters of section 2.3 of RFC 3986: ALPHA / DIGIT / "-" / "." / "_" / "~". */
  predicate IsUnreserved(c: char)
  {
    ('A' <= c <= 'Z') || ('a' <= c <= 'z') || ('0' <= c <= '9') || c == '-' || c == '.' || c == '_' || c == '~'
  }

  predicate IsHexDigit(c: char)
  {
    ('0' <= c <= '9') || ('a' <= c <= 'f') || ('A' <= c <= 'F')
  }

  predicate IsUpperHexDigit(c: char)
  {
    ('0' <= c <= '9') || ('A' <= c <= 'F')
  }

  predicate IsAscii(c: char)
  {
    c as int < 0x80
  }

  predicate AllAscii(t: string)
  {
    forall i :: 0 <= i < |t| ==> IsAscii(t[i])
  }

  function HexValue(c: char): (v: nat)
    requires IsHexDigit(c)
    ensures v < 16
  {
    if '0' <= c <= '9' then c as int - '0' as int
    else if 'a' <= c <= 'f' then c as int - 'a' as int + 10
    else c as int - 'A' as int + 10
  }

  /** The upper-case hex digit for `v`; reading it back gives `v`. */
  function UpperHex(v: nat): (c: char)
    requires v < 16
    ensures IsUpperHexDigit(c) && IsHexDigit(c) && HexValue(c) == v
  {
    if v < 10 then ('0' as int + v) as char else ('A' as int + v - 10) as char
  }

  /** One byte as `quote` writes it: the character itself when unreserved, otherwise `%XX`. */
  function QuoteByte(b: Byte): string
  {
    if b < 0x80 && IsUnreserved(b as char) then [b as char]
    else ['%', UpperHex(b / 16), UpperHex(b % 16)]
  }

  function QuoteBytes(bs: seq<Byte>): string
  {
    if bs == [] then [] else QuoteByte(bs[0]) + QuoteBytes(bs[1..])
  }

  /** `urllib.parse.quote(s, safe='')`: the result is made of unreserved characters and `%XX` escapes only. */
  function Quote(s: string): (q: string)
    ensures Escaped(q)
  {
    QuoteBytesEscaped(Encode(s));
    QuoteBytes(Encode(s))
  }

  /** A string made only of unreserved characters and `%XX` escapes with upper-case hex digits. */
  predicate Escaped(t: string)
    decreases |t|
  {
    || t == []
    || (IsUnreserved(t[0]) && Escaped(t[1..]))
    || (|t| >= 3 && t[0] == '%' && IsUpperHexDigit(t[1]) && IsUpperHexDigit(t[2]) && Escaped(t[3..]))
  }

  lemma {:induction false} QuoteBytesEscaped(bs: seq<Byte>)
    ensures Escaped(QuoteBytes(bs))
    decreases |bs|
  {
    if bs != [] {
      QuoteBytesEscaped(bs[1..]);
      var q := QuoteByte(bs[0]);
      var t := q + QuoteBytes(bs[1..]);
      if |q| == 1 {
        assert t[1..] == QuoteBytes(bs[1..]);
      } else {
        assert t[3..] == QuoteBytes(bs[1..]);
      }
    }
  }

  /** An escaped string is pure ASCII and holds no '/', so it can never be mistaken for several path segments. */
  lemma {:induction false} EscapedIsSlashFreeAscii(t: string)
    requires Escaped(t)
    ensures '/' !in t
    ensures AllAscii(t)
    decreases |t|
  {
    if t != [] {
      if IsUnreserved(t[0]) && Escaped(t[1..]) {
        EscapedIsSlashFreeAscii(t[1..]);
        assert t == [t[0]] + t[1..];
      } else {
        EscapedIsSlashFreeAscii(t[3..]);
        assert t == t[..3] + t[3..];
      }
    }
  }

  /** `unquote_to_bytes` on a run of ASCII characters: each `%XX` with two hex digits becomes one byte, anything else stays as it is. */
  function UnquoteToBytes(t: string): (bs: seq<Byte>)
    requires AllAscii(t)
    ensures |bs| <= |t|
    decreases |t|
  {
    if t == [] then []
    else if t[0] == '%' && |t| >= 3 && IsHexDigit(t[1]) && IsHexDigit(t[2]) then
      [HexValue(t[1]) * 16 + HexValue(t[2])] + UnquoteToBytes(t[3..])
    else [t[0] as int] + UnquoteToBytes(t[1..])
  }

  /** Length of the longest ASCII prefix of `s`. */
  function AsciiRun(s: string): (n: nat)
    ensures n <= |s|
    decreases |s|
  {
    if s == [] || !IsAscii(s[0]) then 0 else 1 + AsciiRun(s[1..])
  }

  lemma {:induction false} AsciiRunSpec(s: string)
    ensures AllAscii(s[..AsciiRun(s)])
    ensures AsciiRun(s) == |s| || !IsAscii(s[AsciiRun(s)])
    ensures s != [] && IsAscii(s[0]) ==> AsciiRun(s) >= 1
    decreases |s|
  {
    if s != [] && IsAscii(s[0]) {
      AsciiRunSpec(s[1..]);
      assert s[..AsciiRun(s)] == [s[0]] + s[1..][..AsciiRun(s[1..])];
    }
  }

  /**
   * The general path of `unquote`: each maximal ASCII run is unquoted to
   * bytes and decoded, other characters are kept.
   */
  function UnquoteRuns(s: string): (r: string)
    ensures |r| <= |s|
    decreases |s|
  {
    if s == [] then []
    else if !IsAscii(s[0]) then [s[0]] + UnquoteRuns(s[1..])
    else
      AsciiRunSpec(s);
      var n := AsciiRun(s);
      Decode(UnquoteToBytes(s[..n])) + UnquoteRuns(s[n..])
  }

  /**
   * `urllib.parse.unquote(s)`: a string without '%' is returned unchanged
   * without decoding. Unquoting never makes a string longer.
   */
  function Unquote(s: string): (t: string)
    ensures |t| <= |s|
  {
    if '%' !in s then s else UnquoteRuns(s)
  }

  /** `unquote_to_bytes` reads the quoting of one byte back as that byte, whatever follows. */
  lemma UnquoteToBytesQuoteByte(b: Byte, rest: string)
    requires AllAscii(QuoteByte(b) + rest)
    requires AllAscii(rest)
    ensures UnquoteToBytes(QuoteByte(b) + rest) == [b] + UnquoteToBytes(rest)
  {
    var t := QuoteByte(b) + rest;
    if b < 0x80 && IsUnreserved(b as char) {
      assert t[0] != '%' && t[1..] == rest;
    } else {
      assert t[1] == UpperHex(b / 16) && t[2] == UpperHex(b % 16) && t[3..] == rest;
    }
  }

  /** `unquote_to_bytes` inverts the escaping of `quote`. */
  lemma {:induction false} UnquoteToBytesQuoteBytes(bs: seq<Byte>)
    ensures AllAscii(QuoteBytes(bs))
    ensures UnquoteToBytes(QuoteBytes(bs)) == bs
    decreases |bs|
  {
    QuoteBytesEscaped(bs);
    EscapedIsSlashFreeAscii(QuoteBytes(bs));
    if bs != [] {
      UnquoteToBytesQuoteBytes(bs[1..]);
      UnquoteToBytesQuoteByte(bs[0], QuoteBytes(bs[1..]));
      assert bs == [bs[0]] + bs[1..];
    }
  }

  /** On an all-ASCII string the run structure of `unquote` collapses to one decode of the unquoted bytes. */
  lemma UnquoteRunsAscii(t: string)
    requires AllAscii(t)
    ensures UnquoteRuns(t) == Decode(UnquoteToBytes(t))
  {
    if t != [] {
      AsciiRunSpec(t);
      assert t[..AsciiRun(t)] == t;
    }
  }

  /** Without '%', unquoting to bytes just takes each character's code. */
  lemma {:induction false} UnquoteToBytesPlain(t: string)
    requires AllAscii(t) && '%' !in t
    ensures |UnquoteToBytes(t)| == |t|
    ensures forall i :: 0 <= i < |t| ==> UnquoteToBytes(t)[i] == t[i] as int
    decreases |t|
  {
    if t != [] {
      assert t[0] in t;
      assert forall c :: c in t[1..] ==> c in t;
      UnquoteToBytesPlain(t[1..]);
    }
  }

  /**
   * The general path of `unquote` leaves a string without '%' unchanged, so
   * the early return for such strings changes nothing and `Unquote` always
   * equals `UnquoteRuns`.
   */
  lemma {:induction false} UnquoteRunsWithoutPercent(s: string)
    requires '%' !in s
    ensures UnquoteRuns(s) == s
    decreases |s|
  {
    if s != [] {
      if !IsAscii(s[0]) {
        assert s == [s[0]] + s[1..];
        UnquoteRunsWithoutPercent(s[1..]);
      } else {
        AsciiRunSpec(s);
        var n := AsciiRun(s);
        var u := s[..n];
        assert s == u + s[n..];
        UnquoteToBytesPlain(u);
        var bs := UnquoteToBytes(u);
        DecodeAscii(bs);
        assert Decode(bs) == u;
        UnquoteRunsWithoutPercent(s[n..]);
      }
    }
  }

  /** `unquote` always agrees with its general path: the '%'-free shortcut changes nothing. */
  lemma UnquoteIsUnquoteRuns(s: string)
    ensures Unquote(s) == UnquoteRuns(s)
  {
    if '%' !in s {
      UnquoteRunsWithoutPercent(s);
    }
  }

  /** Percent-decoding a quoted string gives the original string back: `unquote(quote(s, safe='')) == s`. */
  lemma UnquoteQuote(s: string)
    ensures Unquote(Quote(s)) == s
  {
    var bs := Encode(s);
    var t := QuoteBytes(bs);
    UnquoteToBytesQuoteBytes(bs);
    UnquoteRunsAscii(t);
    DecodeEncode(s);
    UnquoteIsUnquoteRuns(t);
  }

  /** Two ASCII strings concatenate to an ASCII string. */
  lemma AllAsciiConcat(a: string, b: string)
    requires AllAscii(a) && AllAscii(b)
    ensures AllAscii(a + b)
  {
    forall i | 0 <= i < |a + b|
      ensures IsAscii((a + b)[i])
    {
      if i >= |a| {
        assert (a + b)[i] == b[i - |a|];
      }
    }
  }

  /** The quoting of one byte is ASCII. */
  lemma QuoteByteAscii(b: Byte)
    ensures AllAscii(QuoteByte(b))
  {
  }

  /** Appending to a non-empty sequence keeps its head in front. */
  lemma ConsAppend<T>(xs: seq<T>, ys: seq<T>)
    requires xs != []
    ensures xs + ys == [xs[0]] + (xs[1..] + ys)
  {
    assert xs == [xs[0]] + xs[1..];
  }

  /** One step of `UnquoteToBytesAppend`: the first byte's quoting is read back in front of the rest. */
  lemma UnquoteToBytesAppendStep(bs: seq<Byte>, rest: string)
    requires bs != [] && AllAscii(rest)
    requires AllAscii(QuoteBytes(bs[1..]) + rest)
    requires UnquoteToBytes(QuoteBytes(bs[1..]) + rest) == bs[1..] + UnquoteToBytes(rest)
    ensures AllAscii(QuoteBytes(bs) + rest)
    ensures UnquoteToBytes(QuoteBytes(bs) + rest) == bs + UnquoteToBytes(rest)
  {
    var b := bs[0];
    var tail := QuoteBytes(bs[1..]) + rest;
    assert QuoteBytes(bs) + rest == QuoteByte(b) + tail;
    QuoteByteAscii(b);
    AllAsciiConcat(QuoteByte(b), tail);
    UnquoteToBytesQuoteByte(b, tail);
    ConsAppend(bs, UnquoteToBytes(rest));
  }

  /** `unquote_to_bytes` reads quoted bytes back, then goes on with whatever ASCII text follows them. */
  lemma {:induction false} UnquoteToBytesAppend(bs: seq<Byte>, rest: string)
    requires AllAscii(rest)
    ensures AllAscii(QuoteBytes(bs) + rest)
    ensures UnquoteToBytes(QuoteBytes(bs) + rest) == bs + UnquoteToBytes(rest)
    decreases |bs|
  {
    if bs == [] {
      assert QuoteBytes(bs) + rest == rest;
    } else {
      UnquoteToBytesAppend(bs[1..], rest);
      UnquoteToBytesAppendStep(bs, rest);
    }
  }

  /** `quote(part, safe='')` of each segment. */
  function QuoteAll(segments: seq<string>): (quoted: seq<string>)
    ensures |quoted| == |segments|
  {
    seq(|segments|, i requires 0 <= i < |segments| => Quote(segments[i]))
  }

  /** `unquote` of each segment. */
  function UnquoteAll(segments: seq<string>): (plain: seq<string>)
    ensures |plain| == |segments|
  {
    seq(|segments|, i requires 0 <= i < |segments| => Unquote(segments[i]))
  }

  /**
   * A path quoted segment by segment with its slashes kept: how `_build_url`
   * writes a request path, and how a WebDAV server writes the `DAV:href` of a
   * resource.
   */
  function QuotePath(path: string): string
  {
    Join(QuoteAll(Split(path)))
  }

  /** `unquote_to_bytes` reads a leading slash as the byte 0x2F. */
  lemma UnquoteToBytesSlash(r: string)
    requires AllAscii(r)
    ensures AllAscii("/" + r)
    ensures UnquoteToBytes("/" + r) == [0x2F] + UnquoteToBytes(r)
  {
    AllAsciiConcat("/", r);
    assert ("/" + r)[1..] == r;
  }

  /** The UTF-8 encoding of `a + "/" + b` puts the byte 0x2F between the encodings of `a` and `b`. */
  lemma EncodeSlashJoin(a: string, b: string)
    ensures Encode(a + "/" + b) == Encode(a) + [0x2F] + Encode(b)
  {
    assert a + "/" + b == a + ("/" + b);
    EncodeConcat(a, "/" + b);
    EncodeConcat("/", b);
    assert Encode("/") == [0x2F];
  }

  /** Quoting the segments of `[s0] + rest` and joining them puts a slash after the quoted `s0`. */
  lemma JoinQuoteAllCons(s0: string, rest: seq<string>)
    requires |rest| >= 1
    ensures Join(QuoteAll([s0] + rest)) == Quote(s0) + ("/" + Join(QuoteAll(rest)))
  {
    assert QuoteAll([s0] + rest) == [Quote(s0)] + QuoteAll(rest);
    JoinCons(Quote(s0), QuoteAll(rest));
  }

  /** The bytes under segments quoted and joined with '/' are the UTF-8 encoding of the plain join. */
  lemma {:induction false} UnquoteToBytesJoinQuoted(segments: seq<string>)
    requires |segments| >= 1
    ensures AllAscii(Join(QuoteAll(segments)))
    ensures UnquoteToBytes(Join(QuoteAll(segments))) == Encode(Join(segments))
    decreases |segments|
  {
    var s0 := segments[0];
    if |segments| == 1 {
      assert Join(QuoteAll(segments)) == Quote(s0);
      UnquoteToBytesQuoteBytes(Encode(s0));
    } else {
      var rest := segments[1..];
      assert segments == [s0] + rest;
      JoinQuoteAllCons(s0, rest);
      JoinCons(s0, rest);
      UnquoteToBytesJoinQuoted(rest);
      UnquoteToBytesSlash(Join(QuoteAll(rest)));
      UnquoteToBytesAppend(Encode(s0), "/" + Join(QuoteAll(rest)));
      EncodeSlashJoin(s0, Join(rest));
    }
  }

  /** `unquote` reads segments quoted and joined with '/' back as the plain join, slashes and all. */
  lemma UnquoteJoinQuoted(segments: seq<string>)
    ensures Unquote(Join(QuoteAll(segments))) == Join(segments)
  {
    if segments != [] {
      var t := Join(QuoteAll(segments));
      UnquoteToBytesJoinQuoted(segments);
      UnquoteIsUnquoteRuns(t);
      UnquoteRunsAscii(t);
      DecodeEncode(Join(segments));
    }
  }

  /** `unquote` reads a path quoted segment by segment back whole: `unquote(href)` of the href a server writes for a path is that path. */
  lemma UnquoteQuotePath(path: string)
    ensures Unquote(QuotePath(path)) == path
  {
    UnquoteJoinQuoted(Split(path));
    JoinSplit(path);
  }

  /** Distinct strings quote to distinct strings. */
  lemma QuoteInjective(a: string, b: string)
    requires Quote(a) == Quote(b)
    ensures a == b
  {
    UnquoteQuote(a);
    UnquoteQuote(b);
  }
}

=== FILE: utf8.dfy ===
/**
 * UTF-8 as Python's codec applies it inside `urllib.parse.quote` (encoding a
 * string before escaping) and `urllib.parse.unquote` (decoding escaped bytes
 * with `errors='replace'`). Encoding follows section 3 of RFC 3629; decoding
 * replaces each maximal ill-formed subpart with U+FFFD, the policy of
 * section 3.9 of the Unicode Standard that CPython's decoder follows.
 */
module Utf8 {

  type Byte = b: int | 0 <= b < 256

  const Replacement: char := '\U{FFFD}'

  /** The UTF-8 bytes of one Unicode scalar value. */
  function EncodeChar(c: char): (bs: seq<Byte>)
    ensures 1 <= |bs| <= 4
  {
    var n := c as int;
    if n < 0x80 then [n]
    else if n < 0x800 then [0xC0 + n / 64, 0x80 + n % 64]
    else if n < 0x10000 then [0xE0 + n / 64 / 64, 0x80 + n / 64 % 64, 0x80 + n % 64]
    else [0xF0 + n / 64 / 64 / 64, 0x80 + n / 64 / 64 % 64, 0x80 + n / 64 % 64, 0x80 + n % 64]
  }

  /** `s.encode('utf-8')`. */
  function Encode(s: string): seq<Byte>
  {
    if s == [] then [] else EncodeChar(s[0]) + Encode(s[1..])
  }

  /** How many continuation bytes a lead byte announces; 0 for a byte that cannot lead a multi-byte sequence. */
  function Trailing(b: Byte): nat
  {
    if 0xC2 <= b <= 0xDF then 1
    else if 0xE0 <= b <= 0xEF then 2
    else if 0xF0 <= b <= 0xF4 then 3
    else 0
  }

  /**
   * Whether `b` may follow the lead byte `lead` as its first continuation
   * byte. The narrowed ranges after E0, ED, F0 and F4 exclude overlong
   * forms, surrogates and values above U+10FFFF.
   */
  predicate FirstTrailOk(lead: Byte, b: Byte)
  {
    if lead == 0xE0 then 0xA0 <= b <= 0xBF
    else if lead == 0xED then 0x80 <= b <= 0x9F
    else if lead == 0xF0 then 0x90 <= b <= 0xBF
    else if lead == 0xF4 then 0x80 <= b <= 0x8F
    else 0x80 <= b <= 0xBF
  }

  predicate IsContinuation(b: Byte)
  {
    0x80 <= b <= 0xBF
  }

  /** How many of the bytes after the lead `bs[0]` continue its sequence correctly, at most `Trailing(bs[0])`. */
  function Accepted(bs: seq<Byte>): (k: nat)
    requires |bs| > 0
    ensures k <= Trailing(bs[0]) && k < |bs|
  {
    var need := Trailing(bs[0]);
    if need >= 1 && |bs| >= 2 && FirstTrailOk(bs[0], bs[1]) then
      if need >= 2 && |bs| >= 3 && IsContinuation(bs[2]) then
        if need >= 3 && |bs| >= 4 && IsContinuation(bs[3]) then 3 else 2
      else 1
    else 0
  }

  /** The scalar value a complete, well-formed multi-byte sequence at the front of `bs` denotes. */
  function Scalar(bs: seq<Byte>): (n: int)
    requires |bs| > 0 && Trailing(bs[0]) >= 1 && Accepted(bs) == Trailing(bs[0])
    ensures 0x80 <= n < 0xD800 || 0xE000 <= n < 0x110000
  {
    var need := Trailing(bs[0]);
    var lead: int := bs[0];
    var b1: int := bs[1];
    if need == 1 then (lead - 0xC0) * 64 + (b1 - 0x80)
    else
      var b2: int := bs[2];
      if need == 2 then ((lead - 0xE0) * 64 + (b1 - 0x80)) * 64 + (b2 - 0x80)
      else
        var b3: int := bs[3];
        (((lead - 0xF0) * 64 + (b1 - 0x80)) * 64 + (b2 - 0x80)) * 64 + (b3 - 0x80)
  }

  /** One decoding step: the next character and how many bytes it used. */
  function Step(bs: seq<Byte>): (r: (char, nat))
    requires |bs| > 0
    ensures 1 <= r.1 <= |bs|
  {
    if bs[0] < 0x80 then (bs[0] as char, 1)
    else
      var k := Accepted(bs);
      if Trailing(bs[0]) >= 1 && k == Trailing(bs[0]) then (Scalar(bs) as char, k + 1)
      else (Replacement, k + 1)
  }

  /** `bs.decode('utf-8', 'replace')`. */
  function Decode(bs: seq<Byte>): (s: string)
    ensures |s| <= |bs|
    decreases |bs|
  {
    if bs == [] then []
    else
      var st := Step(bs);
      [st.0] + Decode(bs[st.1..])
  }

  /** Decoding the encoding of a character, whatever follows it, yields that character and consumes exactly its bytes. */
  lemma StepEncodeChar(c: char, rest: seq<Byte>)
    ensures Step(EncodeChar(c) + rest) == (c, |EncodeChar(c)|)
  {
    // Each branch writes the code point in base 64, one digit per encoded byte.
    var n := c as int;
    var bs := EncodeChar(c) + rest;
    if n < 0x80 {
    } else if n < 0x800 {
      var q, r := n / 64, n % 64;
      assert n == q * 64 + r;
      assert bs[0] == 0xC0 + q && bs[1] == 0x80 + r;
      assert Trailing(bs[0]) == 1;
      assert Scalar(bs) == n;
    } else if n < 0x10000 {
      var q1, r0 := n / 64, n % 64;
      var q2, r1 := q1 / 64, q1 % 64;
      assert n == (q2 * 64 + r1) * 64 + r0;
      assert bs[0] == 0xE0 + q2 && bs[1] == 0x80 + r1 && bs[2] == 0x80 + r0;
      assert Trailing(bs[0]) == 2;
      assert FirstTrailOk(bs[0], bs[1]);
      assert Scalar(bs) == n;
    } else {
      var q1, r0 := n / 64, n % 64;
      var q2, r1 := q1 / 64, q1 % 64;
      var q3, r2 := q2 / 64, q2 % 64;
      assert n == ((q3 * 64 + r2) * 64 + r1) * 64 + r0;
      assert bs[0] == 0xF0 + q3 && bs[1] == 0x80 + r2 && bs[2] == 0x80 + r1 && bs[3] == 0x80 + r0;
      assert Trailing(bs[0]) == 3;
      assert FirstTrailOk(bs[0], bs[1]);
      assert Scalar(bs) == n;
    }
  }

  /** Decoding undoes encoding: `s.encode('utf-8').decode('utf-8', 'replace') == s`. */
  lemma {:induction false} DecodeEncode(s: string)
    ensures Decode(Encode(s)) == s
    decreases |s|
  {
    if s != [] {
      var head := EncodeChar(s[0]);
      var tail := Encode(s[1..]);
      StepEncodeChar(s[0], tail);
      assert (head + tail)[|head|..] == tail;
      DecodeEncode(s[1..]);
      assert s == [s[0]] + s[1..];
    }
  }

  /** Encoding distributes over concatenation: `(a + b).encode('utf-8') == a.encode('utf-8') + b.encode('utf-8')`. */
  lemma {:induction false} EncodeConcat(a: string, b: string)
    ensures Encode(a + b) == Encode(a) + Encode(b)
    decreases |a|
  {
    if a == [] {
      assert a + b == b;
    } else {
      assert (a + b)[1..] == a[1..] + b;
      EncodeConcat(a[1..], b);
    }
  }

  /** Bytes below 0x80 decode one-for-one to the characters with those codes. */
  lemma {:induction false} DecodeAscii(bs: seq<Byte>)
    requires forall i :: 0 <= i < |bs| ==> bs[i] < 0x80
    ensures |Decode(bs)| == |bs|
    ensures forall i :: 0 <= i < |bs| ==> Decode(bs)[i] as int == bs[i]
    decreases |bs|
  {
    if bs != [] {
      DecodeAscii(bs[1..]);
      assert Decode(bs) == [bs[0] as char] + Decode(bs[1..]);
    }
  }
}

=== FILE: wrappers.dfy ===
/** Small failure-carrying datatypes shared by the model. */
module Wrappers {

  /** A value that may be absent: Python's `None` versus a present value. */
  datatype Option<+T> = None | Some(value: T)

  /** Either a value returned normally or the exception raised instead. */
  datatype Result<+R, +E> = Success(value: R) | Failure(error: E)
}
